=== FILE: README.md ===
# Photo watermark captions: a Dafny model of the decision logic

`watermark_photos.py` stamps each photo in a folder with a "when and where"
caption. The year comes from the EXIF date fields. The place comes either from
a user-written table of `year,place` rows or from reverse geocoding of the
photo's GPS fix. This project models that decision logic as pure functions over
sequences, maps and options, and proves its properties:

- loading the table (`load_locations`);
- filtering the table by year and choosing among several entries by distance to
  the photo (`find_closest_location`);
- the address-field chain and the retry of the reverse lookup
  (`get_city_from_coordinates`);
- reading the year from the EXIF date fields (`get_year_from_exif`);
- the caption priority of `process_images`: table match, then GPS city, then the
  bare year;
- the per-file outcome and the success/skipped/failed tally of the batch loop.

The geocoding service is not modelled. The forward lookup, the reverse lookup
(first call and retry) and the geodesic distance are passed in as function
parameters (`Geo.Services`), so every result holds whatever the service
answers. Python behaviour that matters is written out explicitly:

- `str.strip()` and its whitespace set;
- `int()` on a decimal string: a sign, underscores between digits, and its own whitespace set, which unlike `strip()`'s leaves out the separators U+001C to U+001F;
- `split(':')[0]`;
- f-string formatting of an integer;
- truthiness: year `0`, coordinate `0.0`, empty place names, empty dictionaries.

Modules: `Optional` (Some/None, `dict.get`), `PyText`, `LocationTable`, `Geo`,
`Resolver`, `ExifYear`, `Captioning`, `Batch`.

The table-loading loop (`LocationTable.LoadRows`) and its tolerant counterpart
(`LocationTable.ReadAll`) take the row reader as a parameter, so their
properties hold for any reader. `load_locations` is that loop with
`LocationTable.RowRecord`, which strips the fields and parses the year.

The model follows the code as written:

- A table row with two fields whose year does not parse ends loading. One
  `try` wraps the whole loop, so that row and every later row are lost. A
  header line such as `year,location` empties the whole table
  (`LocationTable.HeaderRowEmptiesTable`).
- Places may be empty. An empty nearest name makes the resolver fall back to
  the first entry for the year, which may well be a non-empty name that then
  becomes the caption. Only an empty final answer makes the caption fall
  through to the city or the bare year.
- The table is consulted only when the photo has a GPS fix. A photo without a
  fix gets the bare year even when its year has exactly one table entry.
  `find_closest_location` itself trusts a single entry with or without a
  coordinate.
- A latitude or longitude of exactly `0.0` counts as no fix.

## Model

| member | source | states |
|---|---|---|
| PyText.Strip | watermark_photos.py:139-140 | the result is the slice of the input left after removing the maximal whitespace prefix and suffix; no whitespace at its edges |
| PyText.IsSpace | watermark_photos.py:139-140 | the characters `strip()` removes: exactly CPython's `str.isspace()` set, the ASCII controls U+0009 to U+000D and U+001C to U+001F, the space, and the non-ASCII Unicode whitespace |
| Optional.Get | watermark_photos.py:106-111 | `dict.get`: a value exactly when the key is present, and then the stored value |
| PyText.StripUnique | watermark_photos.py:139-140 | any slice with only whitespace around it and none at its edges is what strip returns |
| PyText.BeforeColon | watermark_photos.py:56 | the prefix before the first ':' (the whole text when there is none); it holds no ':' and is followed by ':' when shorter |
| PyText.ParseIntAcceptedShape | watermark_photos.py:56 | whatever int() accepts is, after stripping, only digits and underscores with at most a leading sign, and every character stripped is one int() skips |
| PyText.ParseIntIgnoresPadding | watermark_photos.py:56 | padding of the characters int() skips (ASCII whitespace other than the separators U+001C to U+001F, and non-ASCII whitespace) does not change what int() reads from an EXIF value |
| PyText.IsIntSpace | watermark_photos.py:56 | the characters `int()` skips around a number: ASCII whitespace other than the separators U+001C to U+001F, plus all non-ASCII whitespace |
| PyText.IsNumeral | watermark_photos.py:56 | the `decinteger` form `int()` reads, `digit (["_"] digit)*`: leading zeros allowed, an underscore only between two digits |
| PyText.SeparatorPaddingRejected | watermark_photos.py:56 | a separator U+001C to U+001F in front of or behind a number makes int() fail, although strip() would have removed it |
| PyText.ParseInt | watermark_photos.py:56 | an accepted text starts, after stripping, with a digit or a sign, and reads as a non-negative value unless that sign is a minus |
| PyText.StripKeepsTrimmed | watermark_photos.py:139-140 | text without whitespace at its edges is left alone |
| PyText.StripPadding | watermark_photos.py:139-140 | whitespace added around a text does not change what strip leaves |
| PyText.ParseStripped | watermark_photos.py:139 | a parse succeeds only on text starting with a digit or sign; without a minus sign the value is not negative |
| PyText.IntToString | watermark_photos.py:327-333 | the printed integer is digits with a leading minus exactly for negative values, and no whitespace at its edges |
| PyText.NatToString | watermark_photos.py:327 | `str(n)` of a natural number: all digits, the shortest decimal form, so no leading zero unless the number is 0 |
| PyText.NatToStringValue | watermark_photos.py:327-333 | the printed natural number is a numeral whose value is the number |
| PyText.ParseIntRoundTrip | watermark_photos.py:327-333 | the year text printed into a caption reads back through int() as the same year, negative years included |
| LocationTable.RowRecord | watermark_photos.py:138-141 | a row yields a record exactly when it has two or more fields and its stripped first field parses; the record is that year with the stripped second field |
| LocationTable.YearRow | watermark_photos.py:138-141 | a row whose first field is a printed year and whose second field has no edge whitespace yields exactly that year and place |
| LocationTable.RowIgnoresExtraFields | watermark_photos.py:138-141 | fields after the second never change what a row yields |
| LocationTable.WordYearIsBad | watermark_photos.py:139 | a row `bad,X` has a year int() rejects |
| LocationTable.ParseIntRejectsLetter | watermark_photos.py:139 | a stripped year field holding a character other than a digit, `_` or sign makes int() fail |
| LocationTable.LoadRows | watermark_photos.py:134-143 | the loading loop gives at most one record per row |
| LocationTable.LoadLocations | watermark_photos.py:131-145 | the loaded table has at most one record per row |
| LocationTable.ReadAll | watermark_photos.py:137-141 | the tolerant reading of the rows has at most one record per row |
| LocationTable.FirstRejected | watermark_photos.py:137-139 | index of the first row with two fields that yields no record; all rows before it are fine |
| LocationTable.LoadStopsAtFirstRejected | watermark_photos.py:134-143 | the loaded table is exactly the tolerant reading of the rows before the first rejected row |
| LocationTable.LoadWithoutRejects | watermark_photos.py:137-141 | with no rejected row, loading keeps every row that yields a record, skipping short rows |
| LocationTable.LoadIgnoresRowsAfterReject | watermark_photos.py:134-143 | rows after a rejected row never reach the table, whatever they hold |
| LocationTable.LoadedRecordsComeFromRows | watermark_photos.py:137-141 | every loaded record is yielded by a row with two or more fields before the first rejected row |
| LocationTable.ReadAllAppend | watermark_photos.py:137-141 | row order is kept: reading concatenated rows concatenates the tables |
| LocationTable.ReadAllSound | watermark_photos.py:137-141 | every record of the tolerant reading is yielded by some row with two or more fields |
| LocationTable.ReadAllComplete | watermark_photos.py:137-141 | every record a row with two or more fields yields is in the tolerant reading |
| LocationTable.ReadAllMembership | watermark_photos.py:137-141 | a record is in the tolerant reading exactly when some row with two or more fields yields it |
| LocationTable.ShortRowSkipped | watermark_photos.py:137-141 | a row with fewer than two fields between two good rows is skipped |
| LocationTable.RejectDropsLaterRows | watermark_photos.py:134-143 | after a good row, a rejected row ends loading: the table is that one record |
| LocationTable.ShortRowAndExtraColumn | watermark_photos.py:137-141 | rows `y1,p1` / a short row / `y2,p2,extra...` load as (y1, p1), (y2, p2) |
| LocationTable.BadYearDropsLaterRows | watermark_photos.py:134-143 | rows `y,p` / a bad row / anything load as (y, p) only |
| LocationTable.HeaderRowEmptiesTable | watermark_photos.py:134-143 | a first row `year,location` empties the table whatever follows |
| LocationTable.YearMatches | watermark_photos.py:166 | the places filtered by year are at most as many as the table entries |
| LocationTable.YearMatchesSound | watermark_photos.py:166 | every match is the place of a table entry for that year |
| LocationTable.YearMatchesComplete | watermark_photos.py:166 | every table entry for the year appears among the matches |
| LocationTable.YearMatchesAppend | watermark_photos.py:166 | filtering keeps table order: it distributes over concatenation |
| LocationTable.YearMatchesEmpty | watermark_photos.py:166-169 | no entry for the year gives no matches |
| Geo.FirstTruthyField | watermark_photos.py:106-111 | the `or` chain: the first field with a non-empty value, else the last field's value as it is |
| Geo.CityFromAddress | watermark_photos.py:106-111 | city, else town, village, municipality, county in that order, else the state value; a non-empty answer is one of the address values |
| Geo.CityFromCoordinates | watermark_photos.py:96-129 | a first reply with an address gives the city-to-state chain of that address; a first reply with neither address nor exception gives the chain of the retry's address; a raising first call, or no address in either reply, gives no city |
| Geo.HasAddress | watermark_photos.py:103 | the truthiness test `location and location.raw.get('address')`: a reply carrying a non-empty address |
| Geo.IsTruthyText | watermark_photos.py:106-111 | the truthiness of an optional text, as in the `or` chain and the tests of `city` and `matched_location` at :312, :326 and :329: None and "" are falsy, every other text is truthy |
| Geo.RetryOnlyAfterEmptyReply | watermark_photos.py:103-125 | the retry's reply matters only when the first reply had no address and did not raise |
| Resolver.ScanClosest | watermark_photos.py:180-194 | the proximity loop returns nothing exactly when no candidate is located, else the stable minimum: nearest, earliest among equals |
| Resolver.ClosestCandidate | watermark_photos.py:180-199 | the same for the whole candidate list from an empty start (minimum at infinity) |
| Resolver.StableMinUnique | watermark_photos.py:192-194 | the strict < makes the chosen candidate unique |
| Resolver.FindClosestLocation | watermark_photos.py:160-204 | None exactly when the year is falsy or has no entry; otherwise a place listed for that year |
| Resolver.SingleMatchIsTrusted | watermark_photos.py:171-175 | a single entry for the year is the answer with or without a coordinate, and the services do not influence it |
| Resolver.NearestEntryWins | watermark_photos.py:177-199 | with several entries and a coordinate, the stable-minimum entry is the answer when its name is not empty |
| Resolver.FirstEntryFallback | watermark_photos.py:196-204 | the first entry is the answer without a coordinate, when nothing is located, or when the nearest name is empty |
| Resolver.SomeEntryLocated | watermark_photos.py:186-204 | when some entry is located, the answer is the stable minimum, or the first entry when that name is empty |
| Resolver.NearerOfTwoWins | watermark_photos.py:186-199 | of two entries the strictly nearer wins in either table order; on equal distance the first does |
| Resolver.YearZeroNeverMatches | watermark_photos.py:162-163 | year 0 and a missing year match nothing |
| Resolver.IsTruthyYear | watermark_photos.py:162 | the negation of `not year`: a present, non-zero year |
| ExifYear.FieldYear | watermark_photos.py:52-56 | a field yields a year only when present |
| ExifYear.FieldYearOfDate | watermark_photos.py:52-56 | a field reading `YYYY:...` with YYYY printed as an integer yields exactly that year |
| ExifYear.FirstSome | watermark_photos.py:51-59 | some value exactly when some entry is present; then the first present entry |
| ExifYear.YearFromExif | watermark_photos.py:43-61 | DateTimeOriginal, else DateTime, else DateTimeDigitized, each skipped when absent or unparsable; a year needs one of them present |
| ExifYear.ZeroYearStopsTheWalk | watermark_photos.py:51-57 | an unset clock 0000:00:00 00:00:00 gives year 0, which ends the walk |
| Captioning.YearAndPlace | watermark_photos.py:327 | the caption text is the year text, a comma and space, then the place |
| Captioning.HasFix | watermark_photos.py:307 | `lat and lon`: both components present and non-zero |
| Captioning.IsTruthyReal | watermark_photos.py:307 | the truthiness of one coordinate, as tested at :307 and :322: None and 0.0 are falsy, every other value is truthy |
| Captioning.ChooseCaption | watermark_photos.py:304-334 | no fix gives the bare year; with a fix the caption comes from the table exactly when the resolver's answer is a non-empty name, and is then the year followed by that answer; a city caption names the reverse-geocoded city; every non-bare caption starts with the year, a comma and a space |
| Captioning.TableMatchCaption | watermark_photos.py:326-328 | a non-empty table answer gives the year-and-place caption from the table |
| Captioning.NoFixMeansYearOnly | watermark_photos.py:316-322 | without a fix neither the table nor the services change the caption |
| Captioning.SingleEntryCaption | watermark_photos.py:321-328 | with a fix, a single non-empty entry for the year is the caption whatever the services answer |
| Captioning.NoEntryCaption | watermark_photos.py:321-334 | with no entry for the year, the city is used when non-empty, else the bare year |
| Captioning.FalsyAnswerFallsThrough | watermark_photos.py:321-334 | with a fix and a falsy answer from the table, the city is used when it is a non-empty name, else the bare year |
| Captioning.EmptyFirstEntryFallsThrough | watermark_photos.py:196-204 | entries "" and X for the year with nothing located: the resolver answers "", so the city or the bare year is used, never X |
| Captioning.NearerEntryCaption | watermark_photos.py:321-328 | a photo nearer Lisbon than Porto, both listed for 2019, is captioned "2019, Lisbon" in either table order |
| Batch.UsableYear | watermark_photos.py:295-302 | the loop goes on only with EXIF tags whose year is present and non-zero |
| Batch.FinishFile | watermark_photos.py:295-350 | without a usable year the file is skipped; with one it is saved with its caption or fails on saving |
| Batch.ProcessFileAsWritten | watermark_photos.py:284-355 | as written: an unreadable file is skipped, a file without EXIF fails |
| Batch.ProcessFile | watermark_photos.py:284-355 | corrected: skipped exactly without a usable year, failed exactly when saving fails, else saved with its caption |
| Batch.NoExifCountedAsFailure | watermark_photos.py:24-41 | a file without EXIF is a failure as written and skipped once corrected |
| Batch.AsWrittenAgreesOtherwise | watermark_photos.py:284-355 | both versions agree on every other file |
| Batch.Bump | watermark_photos.py:290-354 | each outcome raises exactly its own counter by one and leaves the other two unchanged |
| Batch.CountOutcomes | watermark_photos.py:274-355 | the three counters sum to the number of files |
| Batch.SavedCaptions | watermark_photos.py:326-350 | one caption per saved file, each from a saved outcome |
| Batch.Outcomes | watermark_photos.py:279-355 | one outcome per file, in listing order, each that file's outcome under the corrected step |
| Batch.OutcomesAsWritten | watermark_photos.py:279-355 | one outcome per file, in listing order, each that file's outcome under the step as written |
| Batch.NoExifCount | watermark_photos.py:286-289 | the number of files without EXIF data is at most the number of files |
| Batch.Account | watermark_photos.py:290-354 | the loop's counters are the outcome counts and sum to the number of files; the captions are those of the saved files, in order |
| Batch.AsWrittenTallyShift | watermark_photos.py:284-355 | the tally as written has the same saved count as the corrected one, and each file without EXIF data moves from skipped to failed |
| Batch.ProcessImages | watermark_photos.py:251-355 | corrected: the table is loaded once; the counters sum to the number of files and equal the per-file outcome counts; the captions are those of the saved files in order |
| Batch.ProcessImagesAsWritten | watermark_photos.py:251-355 | the code as written: the counters and captions of the as-written outcomes, where a file without EXIF data counts as failed |

## Left out

- Image decoding, EXIF reading and saving through PIL and pillow_heif (watermark_photos.py:24-41, :337-347). Their results are data: `Batch.ExifRead` and `PhotoFile.saves`. Tag values that are not text cannot be represented.
- The degree/minute/second GPS conversion and its hemisphere sign flip (:63-94). This is floating-point arithmetic; latitude and longitude arrive already decoded.
- Nominatim lookups, the SSL context and the `time.sleep` rate limiting (:16-22, :96-129, :147-158). They become the functions of `Geo.Services`. Because these are plain functions, two lookups of the same name give the same answer.
- The geodesic distance (:189). It is an uninterpreted real-valued function. The exception geopy raises for an out-of-range latitude is not modelled.
- Resolver.FindClosestLocation: the unused `photo_city` and print-only `verbose` parameters are dropped. A coordinate tuple whose latitude is `None` is folded into a missing coordinate.
- Watermark rendering (:206-249), console output, argument parsing and `main` (:369-426), directory listing with its extension filter, output naming and folder creation (:251-272, :341-346). These are interface and file-system plumbing.
- CSV tokenisation: the table arrives as rows already split into fields. A file that cannot be read gives no rows. A `csv.Error` part-way through gives the rows read before it.
- Batch.Outcomes: tallies the corrected per-file step, so a file without EXIF data is skipped where the code as written fails it. Batch.OutcomesAsWritten is the as-written tally, and Batch.AsWrittenTallyShift relates the two.
- Batch.ProcessImages: counts with the corrected step. Batch.ProcessImagesAsWritten counts as the code is written.
- PyText.ParseInt: the non-ASCII decimal digits that Python's `int()` also accepts are not modelled. Nor is the limit of 4300 digits that Python 3.11 and later put on `int()` of a decimal text (`sys.int_info.default_max_str_digits`). A longer year field would end loading at :139 and be skipped at :56, but here it reads as a number.

## Findings

| source | as written | input that shows it | evidently intended | confidence | as-written member | corrected member |
|---|---|---|---|---|---|---|
| watermark_photos.py:30-31 | `get_exif_data` returns three values when the image has no EXIF block. The caller at :286 unpacks two, so the `ValueError` puts the image in the failure counter. | a JPEG without an EXIF block | return two values, so the image is skipped as the message at :289 says | high; not executed | Batch.ProcessFileAsWritten | Batch.ProcessFile |

=== FILE: batch.dfy ===
/**
 * The per-file flow of `process_images` and its tally: every image ends up
 * saved with a caption, skipped for missing data, or failed with an error.
 * Decoding, drawing and saving are not modelled; what they produce is given
 * as data.
 */
module Batch {
  import opened Optional
  import opened LocationTable
  import opened Geo
  import opened Resolver
  import opened ExifYear
  import opened Captioning

  /** What reading the metadata of one image produced:
      - `Unreadable`: opening or reading raised;
      - `NoExif`: the image opened but carries no EXIF block;
      - `Exif`: the named tags (possibly none), with the decoded GPS
        latitude and longitude in signed decimal degrees when present. */
  datatype ExifRead =
    | Unreadable
    | NoExif
    | Exif(tags: map<string, string>, lat: Option<real>, lon: Option<real>)

  /** One input image: its metadata and whether drawing and saving it succeed. */
  datatype PhotoFile = PhotoFile(read: ExifRead, saves: bool)

  /** How the batch loop accounts for one image. */
  datatype Outcome = Saved(caption: Caption) | Skipped | Failed

  /** The counters of `process_images`. */
  datatype Tally = Tally(saved: nat, skipped: nat, failed: nat)

  /** The capture year `process_images` goes on with, if it goes on. */
  function UsableYear(read: ExifRead): (y: Option<int>)
    ensures y.Some? ==> read.Exif? && y.value != 0 && YearFromExif(read.tags) == y
    ensures read.Exif? && IsTruthyYear(YearFromExif(read.tags)) ==> y.Some?
  {
    if read.Exif? && |read.tags| > 0 && IsTruthyYear(YearFromExif(read.tags)) then YearFromExif(read.tags)
    else None
  }

  /** Steps after the metadata was read: skip without a usable year,
      otherwise caption, then fail or succeed on saving. */
  function FinishFile(f: PhotoFile, table: seq<LocationRecord>, svc: Services): (o: Outcome)
    requires f.read.Exif?
    ensures o.Skipped? <==> UsableYear(f.read).None?
    ensures o.Saved? <==> UsableYear(f.read).Some? && f.saves
    ensures o.Saved? ==> o.caption == ChooseCaption(UsableYear(f.read).value, f.read.lat, f.read.lon, table, svc)
  {
    match UsableYear(f.read)
    case None => Skipped
    case Some(year) =>
      if f.saves then Saved(ChooseCaption(year, f.read.lat, f.read.lon, table, svc)) else Failed
  }

  /** One iteration of the batch loop as the source is written: the
      no-EXIF branch of `get_exif_data` returns three values to a caller
      that unpacks two, so such an image lands in the failure counter. */
  function ProcessFileAsWritten(f: PhotoFile, table: seq<LocationRecord>, svc: Services): (o: Outcome)
    ensures f.read.NoExif? ==> o.Failed?
    ensures f.read.Unreadable? ==> o.Skipped?
    ensures f.read.Exif? ==> o == FinishFile(f, table, svc)
  {
    match f.read
    case Unreadable => Skipped
    case NoExif => Failed
    case Exif(_, _, _) => FinishFile(f, table, svc)
  }

  /** One iteration of the batch loop as the messages describe it: an image
      without EXIF data is skipped, as is one without a usable year; an
      image with a year is saved with its caption unless saving fails. */
  function ProcessFile(f: PhotoFile, table: seq<LocationRecord>, svc: Services): (o: Outcome)
    ensures o.Skipped? <==> UsableYear(f.read).None?
    ensures o.Failed? <==> UsableYear(f.read).Some? && !f.saves
    ensures o.Saved? <==> UsableYear(f.read).Some? && f.saves
    ensures o.Saved? ==> o.caption == ChooseCaption(UsableYear(f.read).value, f.read.lat, f.read.lon, table, svc)
  {
    match f.read
    case Unreadable => Skipped
    case NoExif => Skipped
    case Exif(_, _, _) => FinishFile(f, table, svc)
  }

  /** The discrepancy: an image without EXIF data is counted as a failure
      as written, and as skipped once the return value has two parts. */
  lemma NoExifCountedAsFailure(saves: bool, table: seq<LocationRecord>, svc: Services)
    ensures ProcessFileAsWritten(PhotoFile(NoExif, saves), table, svc) == Failed
    ensures ProcessFile(PhotoFile(NoExif, saves), table, svc) == Skipped
  {
  }

  /** The two versions agree on every other image. */
  lemma AsWrittenAgreesOtherwise(f: PhotoFile, table: seq<LocationRecord>, svc: Services)
    requires !f.read.NoExif?
    ensures ProcessFileAsWritten(f, table, svc) == ProcessFile(f, table, svc)
  {
  }

  /** The outcome of every file, in order. */
  function Outcomes(files: seq<PhotoFile>, table: seq<LocationRecord>, svc: Services): (os: seq<Outcome>)
    ensures |os| == |files|
    ensures forall i | 0 <= i < |files| :: os[i] == ProcessFile(files[i], table, svc)
  {
    seq(|files|, i requires 0 <= i < |files| => ProcessFile(files[i], table, svc))
  }

  /** The outcome of every file, in order, with the step as written. */
  function OutcomesAsWritten(files: seq<PhotoFile>, table: seq<LocationRecord>, svc: Services): (os: seq<Outcome>)
    ensures |os| == |files|
    ensures forall i | 0 <= i < |files| :: os[i] == ProcessFileAsWritten(files[i], table, svc)
  {
    seq(|files|, i requires 0 <= i < |files| => ProcessFileAsWritten(files[i], table, svc))
  }

  /** Number of files whose image carries no EXIF block. */
  function NoExifCount(files: seq<PhotoFile>): (n: nat)
    ensures n <= |files|
  {
    if |files| == 0 then 0
    else NoExifCount(files[..|files| - 1]) + (if files[|files| - 1].read.NoExif? then 1 else 0)
  }

  /** The counters after one more outcome: exactly one of them goes up. */
  function Bump(t: Tally, o: Outcome): (t': Tally)
    ensures t'.saved + t'.skipped + t'.failed == t.saved + t.skipped + t.failed + 1
    ensures o.Saved? <==> t'.saved == t.saved + 1
    ensures o.Skipped? <==> t'.skipped == t.skipped + 1
    ensures o.Failed? <==> t'.failed == t.failed + 1
    ensures o.Saved? ==> t' == Tally(t.saved + 1, t.skipped, t.failed)
    ensures o.Skipped? ==> t' == Tally(t.saved, t.skipped + 1, t.failed)
    ensures o.Failed? ==> t' == Tally(t.saved, t.skipped, t.failed + 1)
  {
    match o
    case Saved(_) => t.(saved := t.saved + 1)
    case Skipped => t.(skipped := t.skipped + 1)
    case Failed => t.(failed := t.failed + 1)
  }

  /** The counters after accounting for `os` in order. */
  function CountOutcomes(os: seq<Outcome>): (t: Tally)
    ensures t.saved + t.skipped + t.failed == |os|
  {
    if |os| == 0 then Tally(0, 0, 0) else Bump(CountOutcomes(os[..|os| - 1]), os[|os| - 1])
  }

  /** The captions of the saved images, in order. */
  function SavedCaptions(os: seq<Outcome>): (cs: seq<Caption>)
    ensures |cs| == CountOutcomes(os).saved
    ensures forall c | c in cs :: Saved(c) in os
  {
    if |os| == 0 then []
    else
      var cs := SavedCaptions(os[..|os| - 1]);
      assert forall o | o in os[..|os| - 1] :: o in os;
      match os[|os| - 1]
      case Saved(c) => cs + [c]
      case _ => cs
  }

  /** Accounting for one more outcome. */
  lemma CountStep(os: seq<Outcome>, i: nat)
    requires i < |os|
    ensures CountOutcomes(os[..i + 1]) == Bump(CountOutcomes(os[..i]), os[i])
    ensures SavedCaptions(os[..i + 1])
            == if os[i].Saved? then SavedCaptions(os[..i]) + [os[i].caption] else SavedCaptions(os[..i])
  {
    assert os[..i + 1][..i] == os[..i];
  }

  /** The counting part of the batch loop: each outcome in order bumps one
      counter, and a saved file contributes its caption. */
  method Account(os: seq<Outcome>) returns (tally: Tally, captions: seq<Caption>)
    ensures tally.saved + tally.skipped + tally.failed == |os|
    ensures |captions| == tally.saved
    ensures tally == CountOutcomes(os)
    ensures captions == SavedCaptions(os)
  {
    tally, captions := Tally(0, 0, 0), [];
    var i := 0;
    while i < |os|
      invariant i <= |os|
      invariant tally == CountOutcomes(os[..i])
      invariant captions == SavedCaptions(os[..i])
    {
      CountStep(os, i);
      tally := Bump(tally, os[i]);
      if os[i].Saved? {
        captions := captions + [os[i].caption];
      }
      i := i + 1;
    }
    assert os[..|os|] == os;
  }

  /** The tally as written differs from the corrected one exactly by the
      files without EXIF data: each moves from skipped to failed. */
  lemma {:induction false} AsWrittenTallyShift(files: seq<PhotoFile>, table: seq<LocationRecord>, svc: Services)
    ensures var t, w := CountOutcomes(Outcomes(files, table, svc)), CountOutcomes(OutcomesAsWritten(files, table, svc));
            && w.saved == t.saved
            && w.failed == t.failed + NoExifCount(files)
            && w.skipped + NoExifCount(files) == t.skipped
    decreases |files|
  {
    if |files| > 0 {
      var n := |files| - 1;
      var os, ws := Outcomes(files, table, svc), OutcomesAsWritten(files, table, svc);
      AsWrittenTallyShift(files[..n], table, svc);
      assert os[..n] == Outcomes(files[..n], table, svc);
      assert ws[..n] == OutcomesAsWritten(files[..n], table, svc);
      if !files[n].read.NoExif? {
        AsWrittenAgreesOtherwise(files[n], table, svc);
      }
    }
  }

  /** `process_images` after the folder listing: load the table once, work
      out each file's outcome in listing order, and count. */
  method ProcessImages(rows: seq<seq<string>>, files: seq<PhotoFile>, svc: Services)
    returns (tally: Tally, captions: seq<Caption>)
    ensures tally.saved + tally.skipped + tally.failed == |files|
    ensures |captions| == tally.saved
    ensures tally == CountOutcomes(Outcomes(files, LoadLocations(rows), svc))
    ensures captions == SavedCaptions(Outcomes(files, LoadLocations(rows), svc))
  {
    var table := LoadLocations(rows);
    tally, captions := Account(Outcomes(files, table, svc));
  }

  /** `process_images` as written: a file without EXIF data counts as a
      failure. */
  method ProcessImagesAsWritten(rows: seq<seq<string>>, files: seq<PhotoFile>, svc: Services)
    returns (tally: Tally, captions: seq<Caption>)
    ensures tally.saved + tally.skipped + tally.failed == |files|
    ensures |captions| == tally.saved
    ensures tally == CountOutcomes(OutcomesAsWritten(files, LoadLocations(rows), svc))
    ensures captions == SavedCaptions(OutcomesAsWritten(files, LoadLocations(rows), svc))
  {
    var table := LoadLocations(rows);
    tally, captions := Account(OutcomesAsWritten(files, table, svc));
  }
}

=== FILE: captioning.dfy ===
/**
 * The caption decision of `process_images`: the table's match first, then
 * the city from reverse geocoding, then the bare year.
 */
module Captioning {
  import opened Optional
  import opened PyText
  import opened LocationTable
  import opened Geo
  import opened Resolver

  /** Where the place in a caption came from. */
  datatype Provenance = YearOnly | GpsCity | TableMatch

  /** The watermark text and its provenance. */
  datatype Caption = Caption(text: string, source: Provenance)

  /** Python truthiness of an optional coordinate component: `0.0` and a
      missing value are both false. */
  predicate IsTruthyReal(x: Option<real>) {
    x.Some? && x.value != 0.0
  }

  /** `lat and lon`: the photo has a usable GPS fix. */
  predicate HasFix(lat: Option<real>, lon: Option<real>) {
    IsTruthyReal(lat) && IsTruthyReal(lon)
  }

  /** `f"{year}, {place}"`. */
  function YearAndPlace(year: int, place: string): (t: string)
    ensures |t| == |IntToString(year)| + 2 + |place|
    ensures t[..|IntToString(year)| + 2] == IntToString(year) + ", " && t[|IntToString(year)| + 2..] == place
  {
    IntToString(year) + ", " + place
  }

  /** The caption for a photo of `year` with GPS components `lat`, `lon`.
      The table and the reverse lookup are consulted only with a fix. */
  function ChooseCaption(year: int, lat: Option<real>, lon: Option<real>, table: seq<LocationRecord>, svc: Services)
    : (c: Caption)
    ensures !HasFix(lat, lon) ==> c == Caption(IntToString(year), YearOnly)
    ensures c.source == YearOnly <==> c.text == IntToString(year)
    ensures c.source != YearOnly ==>
              |c.text| > |IntToString(year)| + 2 && c.text[..|IntToString(year)| + 2] == IntToString(year) + ", "
    ensures c.source == TableMatch ==>
              && HasFix(lat, lon)
              && LocationRecord(year, c.text[|IntToString(year)| + 2..]) in table
              && c.text[|IntToString(year)| + 2..] in YearMatches(table, year)
    ensures c.source == GpsCity ==>
              && HasFix(lat, lon)
              && Some(c.text[|IntToString(year)| + 2..]) == CityFromCoordinates(Coord(lat.value, lon.value), svc)
    ensures HasFix(lat, lon) ==>
              var answer := FindClosestLocation(Some(year), Some(Coord(lat.value, lon.value)), table, svc);
              && (c.source == TableMatch <==> IsTruthyText(answer))
              && (c.source == TableMatch ==> c.text == YearAndPlace(year, answer.value))
  {
    if !HasFix(lat, lon) then Caption(IntToString(year), YearOnly)
    else
      var here := Coord(lat.value, lon.value);
      var city := CityFromCoordinates(here, svc);
      var matched := FindClosestLocation(Some(year), Some(here), table, svc);
      if IsTruthyText(matched) then Caption(YearAndPlace(year, matched.value), TableMatch)
      else if IsTruthyText(city) then Caption(YearAndPlace(year, city.value), GpsCity)
      else Caption(IntToString(year), YearOnly)
  }

  /** The table's answer, when it is a non-empty name, beats the city. */
  lemma TableMatchCaption(year: int, lat: Option<real>, lon: Option<real>, table: seq<LocationRecord>, svc: Services,
                          place: string)
    requires HasFix(lat, lon) && place != ""
    requires FindClosestLocation(Some(year), Some(Coord(lat.value, lon.value)), table, svc) == Some(place)
    ensures ChooseCaption(year, lat, lon, table, svc) == Caption(YearAndPlace(year, place), TableMatch)
  {
  }

  /** Without a fix neither the table nor the services matter. */
  lemma NoFixMeansYearOnly(year: int, lat: Option<real>, lon: Option<real>, table: seq<LocationRecord>, svc: Services,
                           table': seq<LocationRecord>, other: Services)
    requires !HasFix(lat, lon)
    ensures ChooseCaption(year, lat, lon, table, svc) == ChooseCaption(year, lat, lon, table', other)
    ensures ChooseCaption(year, lat, lon, table, svc).source == YearOnly
  {
  }

  /** A single non-empty entry for the year is the caption whenever the
      photo has a fix, whatever the services answer. */
  lemma SingleEntryCaption(year: int, lat: Option<real>, lon: Option<real>, table: seq<LocationRecord>, svc: Services)
    requires year != 0 && HasFix(lat, lon)
    requires |YearMatches(table, year)| == 1 && YearMatches(table, year)[0] != ""
    ensures ChooseCaption(year, lat, lon, table, svc) == Caption(YearAndPlace(year, YearMatches(table, year)[0]), TableMatch)
  {
    SingleMatchIsTrusted(year, Some(Coord(lat.value, lon.value)), table, svc, svc);
  }

  /** With no entry for the year, the reverse-geocoded city is used when it
      is a non-empty name, and the bare year otherwise. */
  lemma NoEntryCaption(year: int, lat: Option<real>, lon: Option<real>, table: seq<LocationRecord>, svc: Services)
    requires HasFix(lat, lon)
    requires forall i | 0 <= i < |table| :: table[i].year != year
    ensures var city := CityFromCoordinates(Coord(lat.value, lon.value), svc);
            ChooseCaption(year, lat, lon, table, svc)
            == if IsTruthyText(city) then Caption(YearAndPlace(year, city.value), GpsCity)
               else Caption(IntToString(year), YearOnly)
  {
    YearMatchesEmpty(table, year);
  }

  /** With a fix, a falsy answer from the table (no entry, or an empty
      place name) gives the city when it is a non-empty name, and the bare
      year otherwise. */
  lemma FalsyAnswerFallsThrough(year: int, lat: Option<real>, lon: Option<real>, table: seq<LocationRecord>,
                                svc: Services)
    requires HasFix(lat, lon)
    requires !IsTruthyText(FindClosestLocation(Some(year), Some(Coord(lat.value, lon.value)), table, svc))
    ensures var city := CityFromCoordinates(Coord(lat.value, lon.value), svc);
            ChooseCaption(year, lat, lon, table, svc)
            == if IsTruthyText(city) then Caption(YearAndPlace(year, city.value), GpsCity)
               else Caption(IntToString(year), YearOnly)
  {
  }

  /** The two-entry table where the first entry has an empty name and
      nothing is located: the resolver answers the empty name, so the city
      or the bare year is used, never the second entry. */
  lemma EmptyFirstEntryFallsThrough(year: int, lat: Option<real>, lon: Option<real>, other: string, svc: Services)
    requires year != 0 && HasFix(lat, lon)
    requires svc.geocode("").None? && svc.geocode(other).None?
    ensures var city := CityFromCoordinates(Coord(lat.value, lon.value), svc);
            ChooseCaption(year, lat, lon, [LocationRecord(year, ""), LocationRecord(year, other)], svc)
            == if IsTruthyText(city) then Caption(YearAndPlace(year, city.value), GpsCity)
               else Caption(IntToString(year), YearOnly)
  {
    var here := Coord(lat.value, lon.value);
    var table := [LocationRecord(year, ""), LocationRecord(year, other)];
    assert YearMatches(table, year) == ["", other] by {
      assert table[1..][1..] == [];
    }
    FirstEntryFallback(year, Some(here), table, svc);
    FalsyAnswerFallsThrough(year, lat, lon, table, svc);
  }

  /** A photo near Lisbon, with Lisbon and Porto both listed for its year,
      is captioned with Lisbon whichever of the two comes first. */
  lemma NearerEntryCaption(lat: real, lon: real, svc: Services, lisbonFirst: bool)
    requires lat != 0.0 && lon != 0.0
    requires svc.geocode("Lisbon").Some? && svc.geocode("Porto").Some?
    requires svc.distance(Coord(lat, lon), svc.geocode("Lisbon").value)
             < svc.distance(Coord(lat, lon), svc.geocode("Porto").value)
    ensures var table := if lisbonFirst then [LocationRecord(2019, "Lisbon"), LocationRecord(2019, "Porto")]
                         else [LocationRecord(2019, "Porto"), LocationRecord(2019, "Lisbon")];
            ChooseCaption(2019, Some(lat), Some(lon), table, svc) == Caption("2019, Lisbon", TableMatch)
  {
    var here := Coord(lat, lon);
    var table := if lisbonFirst then [LocationRecord(2019, "Lisbon"), LocationRecord(2019, "Porto")]
                 else [LocationRecord(2019, "Porto"), LocationRecord(2019, "Lisbon")];
    if lisbonFirst {
      NearerOfTwoWins(2019, "Lisbon", "Porto", here, svc);
    } else {
      NearerOfTwoWins(2019, "Porto", "Lisbon", here, svc);
    }
    TableMatchCaption(2019, Some(lat), Some(lon), table, svc, "Lisbon");
    Year2019();
  }

  lemma Year2019()
    ensures YearAndPlace(2019, "Lisbon") == "2019, Lisbon"
  {
    assert NatToString(2) == "2" && NatToString(20) == "20" && NatToString(201) == "201";
    assert IntToString(2019) == "2019";
  }
}

=== FILE: exif_year.dfy ===
/**
 * `get_year_from_exif`: the capture year from the EXIF date fields, which
 * read `"YYYY:MM:DD HH:MM:SS"`.
 */
module ExifYear {
  import opened Optional
  import opened PyText

  /** The date fields, in order of preference. */
  const DateFields: seq<string> := ["DateTimeOriginal", "DateTime", "DateTimeDigitized"]

  /** The year one field yields: `int(value.split(':')[0])`, or `None` when
      the field is absent or the text before the first colon is no integer. */
  function FieldYear(exif: map<string, string>, field: string): (r: Option<int>)
    ensures r.Some? ==> field in exif
  {
    if field in exif then ParseInt(BeforeColon(exif[field])) else None
  }

  /** A field that reads `"YYYY:..."`, the year printed as `f"{y}"`, yields
      that year. */
  lemma FieldYearOfDate(exif: map<string, string>, field: string, y: int, rest: string)
    requires field in exif && exif[field] == IntToString(y) + ":" + rest
    ensures FieldYear(exif, field) == Some(y)
  {
    var s, t := exif[field], IntToString(y);
    var r := BeforeColon(s);
    assert s[..|t|] == t && s[|t|] == ':';
    assert r == t;
    ParseIntRoundTrip(y);
  }

  /** The first present value of `ys`: the walk over the date fields stops
      at the first field that yields a year. */
  function FirstSome(ys: seq<Option<int>>): (r: Option<int>)
    ensures r.Some? <==> exists i | 0 <= i < |ys| :: ys[i].Some?
    ensures forall i | 0 <= i < |ys| :: (ys[i].Some? && forall j | 0 <= j < i :: ys[j].None?) ==> r == ys[i]
  {
    if |ys| == 0 then None
    else if ys[0].Some? then ys[0]
    else
      var r := FirstSome(ys[1..]);
      assert forall i | 1 <= i < |ys| :: ys[i] == ys[1..][i - 1];
      r
  }

  /** `get_year_from_exif`: the year of the first date field that yields
      one, preferring the original capture time, then the file time, then
      the digitising time. An empty dictionary yields nothing. */
  function YearFromExif(exif: map<string, string>): (r: Option<int>)
    ensures FieldYear(exif, "DateTimeOriginal").Some? ==> r == FieldYear(exif, "DateTimeOriginal")
    ensures FieldYear(exif, "DateTimeOriginal").None? && FieldYear(exif, "DateTime").Some? ==>
              r == FieldYear(exif, "DateTime")
    ensures FieldYear(exif, "DateTimeOriginal").None? && FieldYear(exif, "DateTime").None? ==>
              r == FieldYear(exif, "DateTimeDigitized")
    ensures r.Some? ==> "DateTimeOriginal" in exif || "DateTime" in exif || "DateTimeDigitized" in exif
  {
    if |exif| == 0 then
      assert exif == map[];
      None
    else
      var ys := [FieldYear(exif, DateFields[0]), FieldYear(exif, DateFields[1]), FieldYear(exif, DateFields[2])];
      var r := FirstSome(ys);
      assert DateFields[0] == "DateTimeOriginal" && DateFields[1] == "DateTime" && DateFields[2] == "DateTimeDigitized";
      assert ys[0] == FieldYear(exif, "DateTimeOriginal") && ys[1] == FieldYear(exif, "DateTime")
             && ys[2] == FieldYear(exif, "DateTimeDigitized");
      r
  }

  /** A parsable year of 0, the value cameras write for an unset clock, is
      returned as it is and stops the walk: the later fields are not tried. */
  lemma ZeroYearStopsTheWalk(exif: map<string, string>)
    requires "DateTimeOriginal" in exif && exif["DateTimeOriginal"] == "0000:00:00 00:00:00"
    ensures YearFromExif(exif) == Some(0)
  {
    var text := exif["DateTimeOriginal"];
    assert text[4] == ':';
    assert BeforeColon(text) == "0000" by {
      assert text[..4] == "0000";
    }
    StripKeepsTrimmed("0000");
    AllZeros();
  }

  lemma AllZeros()
    ensures ParseInt("0000") == Some(0)
  {
    StripKeepsTrimmed("0000");
    var t := "0000";
    AllDigitsTail(t[1..]);
    assert t[..3] == "000" && t[..3][..2] == "00" && t[..3][..2][..1] == "0";
  }
}

=== FILE: geo.dfy ===
/**
 * Coordinates and the gazetteer the tool talks to. The network lookups are
 * not modelled: `Services` bundles them as plain functions, so every
 * property proved here holds for whatever the service answers.
 */
module Geo {
  import opened Optional

  /** A latitude/longitude pair in decimal degrees. */
  datatype Coord = Coord(lat: real, lon: real)

  /** What one reverse lookup produced: an address dictionary, no usable
      result (no location, or no `address` entry in it), or an exception. */
  datatype ReverseReply = Address(fields: map<string, string>) | NoResult | Raised

  /** The external collaborators of the resolver.
      - `reverse(c, attempt)`: reply to the `attempt`-th reverse lookup of `c`
        (0 for the first call, 1 for the retry);
      - `geocode(name)`: forward lookup, `None` on no match or on any error;
      - `distance(a, b)`: the geodesic distance in kilometres. */
  datatype Services = Services(
    reverse: (Coord, nat) -> ReverseReply,
    geocode: string -> Option<Coord>,
    distance: (Coord, Coord) -> real)

  /** The address fields tried for a city name, most specific first. */
  const AddressFields: seq<string> := ["city", "town", "village", "municipality", "county", "state"]

  /** Python truthiness of an optional text: present and non-empty. */
  predicate IsTruthyText(s: Option<string>) {
    s.Some? && s.value != ""
  }

  /** The chain `a.get(f0) or a.get(f1) or ... or a.get(fn)`: the first
      truthy value, else the value of the last field as it is. */
  function FirstTruthyField(address: map<string, string>, fields: seq<string>): (r: Option<string>)
    requires |fields| > 0
    ensures IsTruthyText(r) ==> exists i | 0 <= i < |fields| :: Get(address, fields[i]) == r
    ensures forall i | 0 <= i < |fields| - 1 ::
              (IsTruthyText(Get(address, fields[i])) && forall j | 0 <= j < i :: !IsTruthyText(Get(address, fields[j])))
              ==> r == Get(address, fields[i])
    ensures (forall j | 0 <= j < |fields| - 1 :: !IsTruthyText(Get(address, fields[j]))) ==>
              r == Get(address, fields[|fields| - 1])
  {
    if |fields| == 1 then Get(address, fields[0])
    else if IsTruthyText(Get(address, fields[0])) then Get(address, fields[0])
    else
      var r := FirstTruthyField(address, fields[1..]);
      assert forall i | 1 <= i < |fields| :: fields[i] == fields[1..][i - 1];
      r
  }

  /** The city name of an address: city, else town, village, municipality,
      county, and finally whatever `state` holds. */
  function CityFromAddress(address: map<string, string>): (r: Option<string>)
    ensures IsTruthyText(r) ==> r.value in address.Values
    ensures forall i | 0 <= i < 5 ::
              (IsTruthyText(Get(address, AddressFields[i])) && forall j | 0 <= j < i :: !IsTruthyText(Get(address, AddressFields[j])))
              ==> r == Get(address, AddressFields[i])
    ensures (forall i | 0 <= i < 5 :: !IsTruthyText(Get(address, AddressFields[i]))) ==>
              r == Get(address, "state")
  {
    FirstTruthyField(address, AddressFields)
  }

  /** Python truthiness of an address dictionary taken from a reply. */
  predicate HasAddress(reply: ReverseReply) {
    reply.Address? && |reply.fields| > 0
  }

  /** `get_city_from_coordinates`: one reverse lookup; when it yields no
      address, a single retry; an exception in either ends with no city. */
  function CityFromCoordinates(c: Coord, svc: Services): (r: Option<string>)
    ensures IsTruthyText(r) ==>
              || (HasAddress(svc.reverse(c, 0)) && r.value in svc.reverse(c, 0).fields.Values)
              || (!svc.reverse(c, 0).Raised? && HasAddress(svc.reverse(c, 1))
                  && r.value in svc.reverse(c, 1).fields.Values)
    ensures HasAddress(svc.reverse(c, 0)) ==> r == CityFromAddress(svc.reverse(c, 0).fields)
    ensures !HasAddress(svc.reverse(c, 0)) && !svc.reverse(c, 0).Raised? && HasAddress(svc.reverse(c, 1)) ==>
              r == CityFromAddress(svc.reverse(c, 1).fields)
    ensures svc.reverse(c, 0).Raised? ==> r == None
    ensures !HasAddress(svc.reverse(c, 0)) && !HasAddress(svc.reverse(c, 1)) ==> r == None
  {
    var first := svc.reverse(c, 0);
    if HasAddress(first) then CityFromAddress(first.fields)
    else if first.Raised? then None
    else
      var second := svc.reverse(c, 1);
      if HasAddress(second) then CityFromAddress(second.fields) else None
  }

  /** The retry is consulted only after a first reply that neither carried
      an address nor raised: services that agree on the first reply and
      differ on the retry give the same city otherwise. */
  lemma RetryOnlyAfterEmptyReply(c: Coord, svc: Services, other: Services)
    requires other.reverse(c, 0) == svc.reverse(c, 0)
    requires HasAddress(svc.reverse(c, 0)) || svc.reverse(c, 0).Raised?
    ensures CityFromCoordinates(c, other) == CityFromCoordinates(c, svc)
  {
  }
}

=== FILE: location_table.dfy ===
/**
 * The user's year -> place table: loading it from comma-separated rows
 * (`load_locations`) and filtering it by year (the list comprehension at the
 * top of `find_closest_location`).
 *
 * The loading loop is stated for any row reader, so that its structural
 * properties are proved once, apart from how a year is parsed; the loader
 * itself uses `RowRecord`.
 */
module LocationTable {
  import opened Optional
  import opened PyText

  /** One table entry. The place may be empty: nothing rejects it. */
  datatype LocationRecord = LocationRecord(year: int, place: string)

  /** How one row is turned into a record, if it can be. */
  type RowReader = seq<string> -> Option<LocationRecord>

  /** The record a row stands for: with at least two fields and a first
      field `int()` accepts after stripping, that year and the stripped
      second field. */
  function RowRecord(row: seq<string>): (r: Option<LocationRecord>)
    ensures r.Some? <==> |row| >= 2 && ParseInt(Strip(row[0])).Some?
    ensures r.Some? ==> r.value.year == ParseInt(Strip(row[0])).value && r.value.place == Strip(row[1])
  {
    if |row| < 2 then None
    else match ParseInt(Strip(row[0]))
      case None => None
      case Some(y) => Some(LocationRecord(y, Strip(row[1])))
  }

  /** A row that ends loading: it has two or more fields but yields no record. */
  predicate Rejects(read: RowReader, row: seq<string>) {
    |row| >= 2 && read(row).None?
  }

  /** `row` has two or more fields and yields the record `r`. */
  predicate Yields(read: RowReader, row: seq<string>, r: LocationRecord) {
    |row| >= 2 && read(row) == Some(r)
  }

  /** The loop of `load_locations` with row reader `read`: rows with fewer
      than two fields are skipped, and because one `try` wraps the whole
      loop the first rejected row ends the table there. */
  function LoadRows(read: RowReader, rows: seq<seq<string>>): (table: seq<LocationRecord>)
    ensures |table| <= |rows|
  {
    if |rows| == 0 then []
    else if |rows[0]| < 2 then LoadRows(read, rows[1..])
    else
      match read(rows[0])
      case None => []
      case Some(r) => [r] + LoadRows(read, rows[1..])
  }

  /** `load_locations` on the rows of the CSV file. */
  function LoadLocations(rows: seq<seq<string>>): (table: seq<LocationRecord>)
    ensures |table| <= |rows|
  {
    LoadRows(RowRecord, rows)
  }

  /** The tolerant reader: every row with at least two fields that yields
      a record contributes it, in row order; every other row is skipped. */
  function ReadAll(read: RowReader, rows: seq<seq<string>>): (table: seq<LocationRecord>)
    ensures |table| <= |rows|
  {
    if |rows| == 0 then []
    else
      var rest := ReadAll(read, rows[1..]);
      if |rows[0]| < 2 then rest
      else
        match read(rows[0])
        case Some(r) => [r] + rest
        case None => rest
  }

  /** Index of the first rejected row, or the number of rows when there is none. */
  function FirstRejected(read: RowReader, rows: seq<seq<string>>): (k: nat)
    ensures k <= |rows|
    ensures forall i | 0 <= i < k :: !Rejects(read, rows[i])
    ensures k < |rows| ==> Rejects(read, rows[k])
  {
    if |rows| == 0 || Rejects(read, rows[0]) then 0
    else
      var k := 1 + FirstRejected(read, rows[1..]);
      assert forall i | 1 <= i < k :: rows[i] == rows[1..][i - 1];
      k
  }

  /** Loading keeps exactly the records of the rows before the first
      rejected one: it is the tolerant reader cut short at that row. */
  lemma {:induction false} LoadStopsAtFirstRejected(read: RowReader, rows: seq<seq<string>>)
    ensures LoadRows(read, rows) == ReadAll(read, rows[..FirstRejected(read, rows)])
    decreases |rows|
  {
    if |rows| > 0 && !Rejects(read, rows[0]) {
      var k := FirstRejected(read, rows);
      LoadStopsAtFirstRejected(read, rows[1..]);
      assert rows[..k][1..] == rows[1..][..k - 1];
    }
  }

  /** With no rejected row, loading agrees with the tolerant reader. */
  lemma LoadWithoutRejects(read: RowReader, rows: seq<seq<string>>)
    requires forall i | 0 <= i < |rows| :: !Rejects(read, rows[i])
    ensures LoadRows(read, rows) == ReadAll(read, rows)
  {
    LoadStopsAtFirstRejected(read, rows);
    assert rows[..|rows|] == rows;
  }

  /** Nothing after a rejected row reaches the table, whatever it holds. */
  lemma LoadIgnoresRowsAfterReject(read: RowReader, good: seq<seq<string>>, bad: seq<string>, rest: seq<seq<string>>)
    requires forall i | 0 <= i < |good| :: !Rejects(read, good[i])
    requires Rejects(read, bad)
    ensures LoadRows(read, good + [bad] + rest) == LoadRows(read, good)
  {
    var rows := good + [bad] + rest;
    assert forall i | 0 <= i < |good| :: rows[i] == good[i];
    assert rows[|good|] == bad;
    assert FirstRejected(read, rows) == |good|;
    LoadStopsAtFirstRejected(read, rows);
    assert rows[..|good|] == good;
    LoadWithoutRejects(read, good);
  }

  /** Every loaded record is the record of some row before the first
      rejected one. */
  lemma LoadedRecordsComeFromRows(read: RowReader, rows: seq<seq<string>>, r: LocationRecord)
    requires r in LoadRows(read, rows)
    ensures exists i | 0 <= i < FirstRejected(read, rows) :: Yields(read, rows[i], r)
  {
    var k := FirstRejected(read, rows);
    LoadStopsAtFirstRejected(read, rows);
    ReadAllSound(read, rows[..k], r);
    var i :| 0 <= i < k && Yields(read, rows[..k][i], r);
    assert rows[..k][i] == rows[i];
  }

  /** The tolerant reader keeps row order: it distributes over concatenation. */
  lemma {:induction false} ReadAllAppend(read: RowReader, a: seq<seq<string>>, b: seq<seq<string>>)
    ensures ReadAll(read, a + b) == ReadAll(read, a) + ReadAll(read, b)
    decreases |a|
  {
    if |a| > 0 {
      ReadAllAppend(read, a[1..], b);
      assert (a + b)[0] == a[0];
      assert (a + b)[1..] == a[1..] + b;
    } else {
      assert a + b == b;
    }
  }

  /** Every record of the tolerant reader comes from some row. */
  lemma {:induction false} ReadAllSound(read: RowReader, rows: seq<seq<string>>, r: LocationRecord)
    requires r in ReadAll(read, rows)
    ensures exists i | 0 <= i < |rows| :: Yields(read, rows[i], r)
    decreases |rows|
  {
    if !Yields(read, rows[0], r) {
      ReadAllSound(read, rows[1..], r);
      var i :| 0 <= i < |rows[1..]| && Yields(read, rows[1..][i], r);
      assert rows[1..][i] == rows[i + 1];
    }
  }

  /** Every record some row yields is in the tolerant reader's table. */
  lemma {:induction false} ReadAllComplete(read: RowReader, rows: seq<seq<string>>, r: LocationRecord, i: nat)
    requires i < |rows| && Yields(read, rows[i], r)
    ensures r in ReadAll(read, rows)
    decreases i
  {
    if i > 0 {
      assert rows[1..][i - 1] == rows[i];
      ReadAllComplete(read, rows[1..], r, i - 1);
    }
  }

  /** A record is in the tolerant reader's table exactly when some row with
      two or more fields yields it. */
  lemma ReadAllMembership(read: RowReader, rows: seq<seq<string>>, r: LocationRecord)
    ensures r in ReadAll(read, rows) <==> exists i | 0 <= i < |rows| :: Yields(read, rows[i], r)
  {
    if r in ReadAll(read, rows) {
      ReadAllSound(read, rows, r);
    }
    if exists i | 0 <= i < |rows| :: Yields(read, rows[i], r) {
      var i :| 0 <= i < |rows| && Yields(read, rows[i], r);
      ReadAllComplete(read, rows, r, i);
    }
  }

  /** A short row between two good rows is skipped. */
  lemma ShortRowSkipped(read: RowReader, first: seq<string>, short: seq<string>, last: seq<string>,
                        r1: LocationRecord, r2: LocationRecord)
    requires |first| >= 2 && read(first) == Some(r1)
    requires |last| >= 2 && read(last) == Some(r2)
    requires |short| < 2
    ensures LoadRows(read, [first, short, last]) == [r1, r2]
  {
    var rows := [first, short, last];
    assert LoadRows(read, [last]) == [r2] by {
      assert [last][1..] == [];
    }
    assert LoadRows(read, rows[1..]) == [r2] by {
      assert rows[1..][0] == short && rows[1..][1..] == [last];
    }
  }

  /** A rejected row ends loading: a good row before it is kept and
      everything after it is lost. */
  lemma RejectDropsLaterRows(read: RowReader, good: seq<string>, r: LocationRecord, bad: seq<string>,
                             rest: seq<seq<string>>)
    requires |good| >= 2 && read(good) == Some(r)
    requires Rejects(read, bad)
    ensures LoadRows(read, [good, bad] + rest) == [r]
  {
    var rows := [good, bad] + rest;
    assert rows[0] == good;
    assert LoadRows(read, [bad] + rest) == [] by {
      assert ([bad] + rest)[0] == bad;
    }
    assert rows[1..] == [bad] + rest;
  }

  /** The places of the table entries for `year`, in table order: the list
      `[loc for yr, loc in locations if yr == year]`. */
  function YearMatches(table: seq<LocationRecord>, year: int): (m: seq<string>)
    ensures |m| <= |table|
  {
    if |table| == 0 then []
    else
      var rest := YearMatches(table[1..], year);
      if table[0].year == year then [table[0].place] + rest else rest
  }

  /** Every match is the place of a table entry for that year. */
  lemma {:induction false} YearMatchesSound(table: seq<LocationRecord>, year: int, p: string)
    requires p in YearMatches(table, year)
    ensures LocationRecord(year, p) in table
    decreases |table|
  {
    if table[0] != LocationRecord(year, p) {
      YearMatchesSound(table[1..], year, p);
    }
  }

  /** Filtering by year keeps table order: it distributes over concatenation. */
  lemma {:induction false} YearMatchesAppend(a: seq<LocationRecord>, b: seq<LocationRecord>, year: int)
    ensures YearMatches(a + b, year) == YearMatches(a, year) + YearMatches(b, year)
    decreases |a|
  {
    if |a| > 0 {
      YearMatchesAppend(a[1..], b, year);
      assert (a + b)[1..] == a[1..] + b;
    } else {
      assert a + b == b;
    }
  }

  /** Every entry for `year` shows up among the matches: together with the
      contract of `YearMatches`, a place matches exactly when the table holds
      it for that year. */
  lemma {:induction false} YearMatchesComplete(table: seq<LocationRecord>, year: int, p: string)
    requires LocationRecord(year, p) in table
    ensures p in YearMatches(table, year)
    decreases |table|
  {
    if table[0] != LocationRecord(year, p) {
      YearMatchesComplete(table[1..], year, p);
    }
  }

  /** No entry for `year` means no matches. */
  lemma {:induction false} YearMatchesEmpty(table: seq<LocationRecord>, year: int)
    requires forall i | 0 <= i < |table| :: table[i].year != year
    ensures YearMatches(table, year) == []
    decreases |table|
  {
    if |table| > 0 {
      YearMatchesEmpty(table[1..], year);
    }
  }

  /** A row whose first field is a printed year and whose second field has
      no whitespace at its edges yields exactly that year and place. */
  lemma YearRow(y: int, place: string)
    requires |place| > 0 && !IsSpace(place[0]) && !IsSpace(place[|place| - 1])
    ensures RowRecord([IntToString(y), place]) == Some(LocationRecord(y, place))
  {
    StripKeepsTrimmed(IntToString(y));
    ParseIntRoundTrip(y);
    StripKeepsTrimmed(place);
  }

  /** Fields after the second are ignored. */
  lemma RowIgnoresExtraFields(row: seq<string>, extra: seq<string>)
    requires |row| >= 2
    ensures RowRecord(row + extra) == RowRecord(row)
  {
    assert (row + extra)[0] == row[0] && (row + extra)[1] == row[1];
  }

  /** A short row is skipped and an extra column ignored: the rows `y1,p1`,
      a row with fewer than two fields, and `y2,p2,...` load as two records. */
  lemma ShortRowAndExtraColumn(y1: int, p1: string, short: seq<string>, y2: int, p2: string, extra: seq<string>)
    requires |p1| > 0 && !IsSpace(p1[0]) && !IsSpace(p1[|p1| - 1])
    requires |p2| > 0 && !IsSpace(p2[0]) && !IsSpace(p2[|p2| - 1])
    requires |short| < 2
    ensures LoadLocations([[IntToString(y1), p1], short, [IntToString(y2), p2] + extra])
            == [LocationRecord(y1, p1), LocationRecord(y2, p2)]
  {
    YearRow(y1, p1);
    YearRow(y2, p2);
    RowIgnoresExtraFields([IntToString(y2), p2], extra);
    ShortRowSkipped(RowRecord, [IntToString(y1), p1], short, [IntToString(y2), p2] + extra,
                    LocationRecord(y1, p1), LocationRecord(y2, p2));
  }

  /** A row with two fields and a bad year ends loading: the good row before
      it is kept, every later row is lost. */
  lemma BadYearDropsLaterRows(y: int, p: string, bad: seq<string>, rest: seq<seq<string>>)
    requires |p| > 0 && !IsSpace(p[0]) && !IsSpace(p[|p| - 1])
    requires Rejects(RowRecord, bad)
    ensures LoadLocations([[IntToString(y), p], bad] + rest) == [LocationRecord(y, p)]
  {
    YearRow(y, p);
    RejectDropsLaterRows(RowRecord, [IntToString(y), p], LocationRecord(y, p), bad, rest);
  }

  /** The year field `bad` is rejected, so a row `bad,X` is a bad row. */
  lemma WordYearIsBad(x: string)
    ensures Rejects(RowRecord, ["bad", x])
  {
    StripKeepsTrimmed("bad");
    ParseIntRejectsLetter("bad", 0);
  }

  /** A header line such as `year,location` empties the whole table. */
  lemma HeaderRowEmptiesTable(rest: seq<seq<string>>)
    ensures LoadLocations([["year", "location"]] + rest) == []
  {
    StripKeepsTrimmed("year");
    ParseIntRejectsLetter("year", 0);
    assert Rejects(RowRecord, ["year", "location"]);
  }

  /** `int()` rejects a text whose stripped form holds a letter-like character. */
  lemma ParseIntRejectsLetter(s: string, i: nat)
    requires i < |Strip(s)|
    requires !IsDigit(Strip(s)[i]) && Strip(s)[i] != '_' && Strip(s)[i] != '+' && Strip(s)[i] != '-'
    ensures ParseInt(s).None?
  {
    if ParseInt(s).Some? {
      ParseIntAcceptedShape(s);
    }
  }
}

=== FILE: optional.dfy ===
/** The Some/None datatype standing in for Python's `None`-or-value results. */
module Optional {

  datatype Option<+T> = None | Some(value: T)

  /** Python's `d.get(k)` on a dictionary. */
  function Get<K, V>(m: map<K, V>, k: K): (r: Option<V>)
    ensures r.Some? <==> k in m
    ensures r.Some? ==> r.value == m[k]
  {
    if k in m then Some(m[k]) else None
  }
}

=== FILE: pytext.dfy ===
/**
 * The pieces of Python's text handling the tool leans on: `str.strip()`,
 * `s.split(':')[0]`, `int(s)` on a decimal string and `str(n)` /
 * f-string formatting of an integer.
 */
module PyText {
  import opened Optional

  /** Python's `str.isspace()` for one character: the characters `strip()`
      removes. */
  predicate IsSpace(c: char) {
    || ('\U{9}' <= c <= '\U{D}')
    || ('\U{1C}' <= c <= '\U{20}')
    || c == '\U{85}' || c == '\U{A0}' || c == '\U{1680}'
    || ('\U{2000}' <= c <= '\U{200A}')
    || c == '\U{2028}' || c == '\U{2029}' || c == '\U{202F}'
    || c == '\U{205F}' || c == '\U{3000}'
  }

  /** Number of whitespace characters at the front of `s`. */
  function LeadingSpaces(s: string): (n: nat)
    ensures n <= |s|
    ensures forall i | 0 <= i < n :: IsSpace(s[i])
    ensures n < |s| ==> !IsSpace(s[n])
  {
    if |s| == 0 || !IsSpace(s[0]) then 0 else 1 + LeadingSpaces(s[1..])
  }

  /** Number of whitespace characters at the back of `s`. */
  function TrailingSpaces(s: string): (n: nat)
    ensures n <= |s|
    ensures forall i | |s| - n <= i < |s| :: IsSpace(s[i])
    ensures n < |s| ==> !IsSpace(s[|s| - n - 1])
  {
    if |s| == 0 || !IsSpace(s[|s| - 1]) then 0 else 1 + TrailingSpaces(s[..|s| - 1])
  }

  /** Python's `s.strip()`: the slice of `s` left after removing the maximal
      whitespace prefix and suffix. */
  function Strip(s: string): (r: string)
    ensures |r| > 0 ==> !IsSpace(r[0]) && !IsSpace(r[|r| - 1])
    ensures LeadingSpaces(s) + |r| <= |s|
    ensures r == s[LeadingSpaces(s)..LeadingSpaces(s) + |r|]
    ensures forall i | LeadingSpaces(s) + |r| <= i < |s| :: IsSpace(s[i])
  {
    var t := s[LeadingSpaces(s)..];
    t[..|t| - TrailingSpaces(t)]
  }

  /** Text without whitespace at either edge is left alone by `strip()`. */
  lemma StripKeepsTrimmed(s: string)
    requires |s| > 0 && !IsSpace(s[0]) && !IsSpace(s[|s| - 1])
    ensures Strip(s) == s
  {
    StripUnique(s, 0, s);
  }

  /** Python's `s.split(':')[0]`: everything before the first colon, or the
      whole text when there is none. */
  function BeforeColon(s: string): (r: string)
    ensures |r| <= |s| && r == s[..|r|]
    ensures ':' !in r
    ensures |r| < |s| ==> s[|r|] == ':'
  {
    if |s| == 0 || s[0] == ':' then [] else [s[0]] + BeforeColon(s[1..])
  }

  predicate IsDigit(c: char) {
    '0' <= c <= '9'
  }

  function DigitValue(c: char): (d: nat)
    requires IsDigit(c)
    ensures d < 10
  {
    c as int - '0' as int
  }

  function DigitChar(d: nat): (c: char)
    requires d < 10
    ensures IsDigit(c) && DigitValue(c) == d
  {
    ('0' as int + d) as char
  }

  /** Python's `decinteger` as `int()` reads it: `digit (["_"] digit)*`, so a
      single underscore may separate two digits. */
  predicate IsNumeral(s: string) {
    |s| > 0 && IsDigit(s[0]) && IsNumeralTail(s[1..])
  }

  /** The `(["_"] digit)*` part of a numeral. */
  predicate IsNumeralTail(s: string) {
    if |s| == 0 then true
    else if IsDigit(s[0]) then IsNumeralTail(s[1..])
    else |s| >= 2 && s[0] == '_' && IsDigit(s[1]) && IsNumeralTail(s[2..])
  }

  /** Every character of a numeral is a digit or an underscore. */
  predicate DigitsOrUnderscores(s: string) {
    forall i | 0 <= i < |s| :: IsDigit(s[i]) || s[i] == '_'
  }

  lemma {:induction false} NumeralTailShape(s: string)
    requires IsNumeralTail(s)
    ensures DigitsOrUnderscores(s)
    decreases |s|
  {
    if |s| > 0 {
      if IsDigit(s[0]) {
        NumeralTailShape(s[1..]);
        assert forall i | 1 <= i < |s| :: s[i] == s[1..][i - 1];
      } else {
        NumeralTailShape(s[2..]);
        assert forall i | 2 <= i < |s| :: s[i] == s[2..][i - 2];
      }
    }
  }

  lemma NumeralShape(s: string)
    requires IsNumeral(s)
    ensures DigitsOrUnderscores(s)
  {
    NumeralTailShape(s[1..]);
    assert forall i | 1 <= i < |s| :: s[i] == s[1..][i - 1];
  }

  /** The value of a run of digits, underscores contributing nothing. */
  function NumeralValue(s: string): nat
    requires DigitsOrUnderscores(s)
  {
    if |s| == 0 then 0
    else if s[|s| - 1] == '_' then NumeralValue(s[..|s| - 1])
    else 10 * NumeralValue(s[..|s| - 1]) + DigitValue(s[|s| - 1])
  }

  /** The information separators U+001C to U+001F: `isspace()` holds for
      them, but `int()` neither skips them nor reads them as part of a number. */
  predicate IsSeparator(c: char) {
    '\U{1C}' <= c <= '\U{1F}'
  }

  /** The characters `int()` skips around a number: ASCII tab, line feed,
      vertical tab, form feed, carriage return and space, and every
      non-ASCII character for which `isspace()` holds. */
  predicate IsIntSpace(c: char) {
    IsSpace(c) && !IsSeparator(c)
  }

  predicate HasSeparator(s: string) {
    exists i | 0 <= i < |s| :: IsSeparator(s[i])
  }

  /** Python's `int(s)` for a base-10 string: surrounding whitespace is
      ignored, one optional sign, then a numeral; anything else is a
      `ValueError`, here `None`. A separator anywhere is an error: one in the
      padding stops `int()`'s own stripping, so it is left in front of or
      behind the number, and one inside the number is not a digit. Without
      separators, `int()`'s padding is exactly `strip()`'s. */
  function ParseInt(s: string): (r: Option<int>)
    ensures r.Some? ==> |Strip(s)| > 0 && (IsDigit(Strip(s)[0]) || Strip(s)[0] == '+' || Strip(s)[0] == '-')
    ensures r.Some? && Strip(s)[0] != '-' ==> r.value >= 0
  {
    if HasSeparator(s) then None else ParseStripped(Strip(s))
  }

  /** `int()` on text already stripped of surrounding whitespace. */
  function ParseStripped(t: string): (r: Option<int>)
    ensures r.Some? ==> |t| > 0 && (IsDigit(t[0]) || t[0] == '+' || t[0] == '-')
    ensures r.Some? && t[0] != '-' ==> r.value >= 0
  {
    if |t| > 0 && (t[0] == '+' || t[0] == '-') then
      if IsNumeral(t[1..]) then
        NumeralShape(t[1..]);
        var n: int := NumeralValue(t[1..]);
        Some(if t[0] == '-' then -n else n)
      else None
    else if IsNumeral(t) then
      NumeralShape(t);
      Some(NumeralValue(t))
    else None
  }

  /** What `int()` accepts: after stripping, every character is a digit, an
      underscore, or a sign in front, and every character stripped is one
      `int()` skips. */
  lemma ParseIntAcceptedShape(s: string)
    requires ParseInt(s).Some?
    ensures |Strip(s)| > 0
    ensures forall i | 0 <= i < |Strip(s)| ::
              IsDigit(Strip(s)[i]) || Strip(s)[i] == '_' || (i == 0 && Strip(s)[i] in "+-")
    ensures forall i | 0 <= i < LeadingSpaces(s) :: IsIntSpace(s[i])
    ensures forall i | LeadingSpaces(s) + |Strip(s)| <= i < |s| :: IsIntSpace(s[i])
  {
    var t := Strip(s);
    if t[0] == '+' || t[0] == '-' {
      NumeralShape(t[1..]);
      assert forall i | 1 <= i < |t| :: t[i] == t[1..][i - 1];
    } else {
      NumeralShape(t);
    }
  }

  /** Python's `str(n)` for a natural number: shortest decimal form. */
  function NatToString(n: nat): (r: string)
    ensures |r| > 0 && IsDigit(r[0]) && IsDigit(r[|r| - 1])
    ensures forall i | 0 <= i < |r| :: IsDigit(r[i])
    ensures |r| > 1 ==> r[0] != '0'
  {
    if n < 10 then [DigitChar(n)] else NatToString(n / 10) + [DigitChar(n % 10)]
  }

  /** Python's `str(i)` / `f"{i}"` for an integer. */
  function IntToString(i: int): (r: string)
    ensures |r| > 0 && !IsSpace(r[0]) && IsDigit(r[|r| - 1])
    ensures i < 0 <==> r[0] == '-'
    ensures forall k | 0 <= k < |r| :: IsDigit(r[k]) || (k == 0 && r[k] == '-')
  {
    if i < 0 then "-" + NatToString(-i) else NatToString(i)
  }

  lemma {:induction false} AllDigitsTail(s: string)
    requires forall i | 0 <= i < |s| :: IsDigit(s[i])
    ensures IsNumeralTail(s)
    decreases |s|
  {
    if |s| > 0 {
      AllDigitsTail(s[1..]);
    }
  }

  lemma {:induction false} NatToStringValue(n: nat)
    ensures IsNumeral(NatToString(n))
    ensures DigitsOrUnderscores(NatToString(n))
    ensures NumeralValue(NatToString(n)) == n
    decreases n
  {
    var s := NatToString(n);
    AllDigitsTail(s[1..]);
    if n >= 10 {
      NatToStringValue(n / 10);
      assert s[..|s| - 1] == NatToString(n / 10);
    }
  }

  /** Reading back what `f"{i}"` printed gives `i` again. */
  lemma ParseIntRoundTrip(i: int)
    ensures ParseInt(IntToString(i)) == Some(i)
  {
    var s := IntToString(i);
    StripKeepsTrimmed(s);
    assert !HasSeparator(s) by {
      forall k | 0 <= k < |s| ensures !IsSeparator(s[k]) {
        assert IsDigit(s[k]) || s[k] == '-';
      }
    }
    if i < 0 {
      NatToStringValue(-i);
      assert s[1..] == NatToString(-i);
      var n: int := NumeralValue(s[1..]);
      assert ParseStripped(s) == Some(-n);
    } else {
      NatToStringValue(i);
      assert ParseStripped(s) == Some(NumeralValue(s));
    }
  }

  /** Whitespace `int()` skips around a number does not change what it reads. */
  lemma ParseIntIgnoresPadding(pre: string, s: string, post: string)
    requires forall i | 0 <= i < |pre| :: IsIntSpace(pre[i])
    requires forall i | 0 <= i < |post| :: IsIntSpace(post[i])
    ensures ParseInt(pre + s + post) == ParseInt(s)
  {
    var u := pre + s + post;
    StripPadding(pre, s, post);
    if HasSeparator(s) {
      var i :| 0 <= i < |s| && IsSeparator(s[i]);
      assert u[|pre| + i] == s[i];
    }
    if HasSeparator(u) {
      var i :| 0 <= i < |u| && IsSeparator(u[i]);
      assert |pre| <= i < |pre| + |s|;
      assert s[i - |pre|] == u[i];
    }
  }

  /** A separator in front of or behind a number makes `int()` fail, though
      `strip()` would have removed it. */
  lemma SeparatorPaddingRejected(c: char, s: string)
    requires IsSeparator(c)
    ensures ParseInt([c] + s) == None && ParseInt(s + [c]) == None
  {
    assert ([c] + s)[0] == c;
    assert (s + [c])[|s|] == c;
  }

  /** `strip()` is determined by its characterisation: whatever slice has
      only whitespace around it and no whitespace at its edges is the result. */
  lemma StripUnique(s: string, a: nat, m: string)
    requires a + |m| <= |s| && s[a..a + |m|] == m
    requires forall i | 0 <= i < a :: IsSpace(s[i])
    requires forall i | a + |m| <= i < |s| :: IsSpace(s[i])
    requires |m| > 0 ==> !IsSpace(m[0]) && !IsSpace(m[|m| - 1])
    ensures Strip(s) == m
  {
    var r, l := Strip(s), LeadingSpaces(s);
    if |m| == 0 {
      assert forall i | 0 <= i < |s| :: IsSpace(s[i]);
    } else {
      assert s[a] == m[0];
      assert l == a;
      assert !IsSpace(s[a + |m| - 1]);
      assert |r| > 0 ==> r[|r| - 1] == s[a + |r| - 1];
      assert |r| == |m|;
    }
  }

  lemma StripPadding(pre: string, s: string, post: string)
    requires forall i | 0 <= i < |pre| :: IsSpace(pre[i])
    requires forall i | 0 <= i < |post| :: IsSpace(post[i])
    ensures Strip(pre + s + post) == Strip(s)
  {
    var u := pre + s + post;
    var a, r := LeadingSpaces(s), Strip(s);
    assert u[|pre| + a..|pre| + a + |r|] == r;
    StripUnique(u, |pre| + a, r);
  }
}

=== FILE: resolver.dfy ===
/**
 * `find_closest_location`: pick one place for a photo's year from the
 * user's table, using proximity to the photo when the year is ambiguous.
 */
module Resolver {
  import opened Optional
  import opened LocationTable
  import opened Geo

  /** Python truthiness of the `year` argument: `not year` holds for `None`
      and for 0. */
  predicate IsTruthyYear(year: Option<int>) {
    year.Some? && year.value != 0
  }

  /** Candidate `j` has a coordinate from the forward lookup. */
  predicate Located(cands: seq<string>, svc: Services, j: int)
    requires 0 <= j < |cands|
  {
    svc.geocode(cands[j]).Some?
  }

  /** Distance from the photo to a located candidate. */
  function DistanceTo(cands: seq<string>, here: Coord, svc: Services, j: int): real
    requires 0 <= j < |cands| && Located(cands, svc, j)
  {
    svc.distance(here, svc.geocode(cands[j]).value)
  }

  /** None of the first `n` candidates could be located. */
  predicate NoneLocated(cands: seq<string>, svc: Services, n: int)
    requires n <= |cands|
  {
    forall j | 0 <= j < n :: !Located(cands, svc, j)
  }

  /** `k` is the stable minimum of the first `n` candidates: located, no
      farther than any other located candidate, and strictly nearer than
      every located candidate before it. */
  predicate IsStableMin(cands: seq<string>, here: Coord, svc: Services, n: int, k: int)
    requires n <= |cands|
  {
    && 0 <= k < n
    && Located(cands, svc, k)
    && (forall j | 0 <= j < n && Located(cands, svc, j) ::
          DistanceTo(cands, here, svc, k) <= DistanceTo(cands, here, svc, j))
    && (forall j | 0 <= j < k && Located(cands, svc, j) ::
          DistanceTo(cands, here, svc, k) < DistanceTo(cands, here, svc, j))
  }

  /** At most one candidate is the stable minimum. */
  lemma StableMinUnique(cands: seq<string>, here: Coord, svc: Services, n: int, k: int, k': int)
    requires n <= |cands|
    requires IsStableMin(cands, here, svc, n, k) && IsStableMin(cands, here, svc, n, k')
    ensures k == k'
  {
  }

  /** What the proximity loop knows after `i` candidates: with no best yet
      nothing was located; otherwise the best is the stable minimum so far
      and its recorded distance is its distance. */
  predicate ScanInvariant(cands: seq<string>, here: Coord, svc: Services, i: int, best: Option<(int, real)>)
    requires i <= |cands|
  {
    match best
    case None => NoneLocated(cands, svc, i)
    case Some((k, d)) => IsStableMin(cands, here, svc, i, k) && d == DistanceTo(cands, here, svc, k)
  }

  /** The proximity loop of `find_closest_location` from candidate `i` on:
      each located candidate replaces the best one only when strictly
      nearer (`distance < min_distance`, the first one always, since the
      minimum starts at infinity). */
  function ScanClosest(cands: seq<string>, here: Coord, svc: Services, i: nat, best: Option<(int, real)>): (r: Option<int>)
    requires i <= |cands|
    requires ScanInvariant(cands, here, svc, i, best)
    ensures r.None? <==> NoneLocated(cands, svc, |cands|)
    ensures r.Some? ==> IsStableMin(cands, here, svc, |cands|, r.value)
    decreases |cands| - i
  {
    if i == |cands| then
      match best
      case None => None
      case Some((k, _)) => Some(k)
    else
      match svc.geocode(cands[i])
      case None => ScanClosest(cands, here, svc, i + 1, best)
      case Some(there) =>
        var d := svc.distance(here, there);
        if best.None? || d < best.value.1 then ScanClosest(cands, here, svc, i + 1, Some((i, d)))
        else ScanClosest(cands, here, svc, i + 1, best)
  }

  /** The index of the nearest located candidate, earliest on ties; `None`
      when no candidate could be located. */
  function ClosestCandidate(cands: seq<string>, here: Coord, svc: Services): (r: Option<int>)
    ensures r.None? <==> NoneLocated(cands, svc, |cands|)
    ensures r.Some? ==> IsStableMin(cands, here, svc, |cands|, r.value)
  {
    ScanClosest(cands, here, svc, 0, None)
  }

  /** `find_closest_location(year, _, photo, table)`: `None` for a falsy year
      or no entry for it; the single entry when there is one; with several
      and a photo coordinate, the nearest one the forward lookup locates
      unless its name is empty; the first entry in every other case. */
  function FindClosestLocation(year: Option<int>, photo: Option<Coord>, table: seq<LocationRecord>, svc: Services)
    : (r: Option<string>)
    ensures r.None? <==> !IsTruthyYear(year) || YearMatches(table, year.value) == []
    ensures r.Some? ==> r.value in YearMatches(table, year.value)
    ensures r.Some? ==> LocationRecord(year.value, r.value) in table
  {
    var r := if !IsTruthyYear(year) || |table| == 0 then None
      else
        var matches := YearMatches(table, year.value);
        if |matches| == 0 then None
        else if |matches| == 1 then Some(matches[0])
        else if photo.Some? then
          match ClosestCandidate(matches, photo.value, svc)
          case Some(k) => if matches[k] != "" then Some(matches[k]) else Some(matches[0])
          case None => Some(matches[0])
        else Some(matches[0]);
    if r.Some? then YearMatchesSound(table, year.value, r.value); r else r
  }

  /** A single entry for the year is trusted as it is: it is the answer with
      or without a photo coordinate, and no lookup is consulted, so any two
      services give the same answer. */
  lemma SingleMatchIsTrusted(year: int, photo: Option<Coord>, table: seq<LocationRecord>, svc: Services, other: Services)
    requires year != 0
    requires |YearMatches(table, year)| == 1
    ensures FindClosestLocation(Some(year), photo, table, svc) == Some(YearMatches(table, year)[0])
    ensures FindClosestLocation(Some(year), photo, table, other) == FindClosestLocation(Some(year), photo, table, svc)
  {
  }

  /** With several entries for the year and a photo coordinate, the nearest
      located entry wins, the earliest in table order among equally near
      ones, as long as its name is not empty. */
  lemma NearestEntryWins(year: int, here: Coord, table: seq<LocationRecord>, svc: Services, k: int)
    requires year != 0
    requires |YearMatches(table, year)| >= 2
    requires IsStableMin(YearMatches(table, year), here, svc, |YearMatches(table, year)|, k)
    requires YearMatches(table, year)[k] != ""
    ensures FindClosestLocation(Some(year), Some(here), table, svc) == Some(YearMatches(table, year)[k])
  {
    var m := YearMatches(table, year);
    var r := ClosestCandidate(m, here, svc);
    assert r.Some?;
    StableMinUnique(m, here, svc, |m|, k, r.value);
  }

  /** The first entry for the year is the answer when there is no photo
      coordinate, when no entry could be located, or when the nearest one
      has an empty name. */
  lemma FirstEntryFallback(year: int, photo: Option<Coord>, table: seq<LocationRecord>, svc: Services)
    requires year != 0
    requires |YearMatches(table, year)| >= 1
    requires || photo.None?
             || NoneLocated(YearMatches(table, year), svc, |YearMatches(table, year)|)
             || (exists k :: IsStableMin(YearMatches(table, year), photo.value, svc, |YearMatches(table, year)|, k)
                             && YearMatches(table, year)[k] == "")
    ensures FindClosestLocation(Some(year), photo, table, svc) == Some(YearMatches(table, year)[0])
  {
    var m := YearMatches(table, year);
    if photo.Some? && |m| >= 2 && !NoneLocated(m, svc, |m|) {
      var k :| IsStableMin(m, photo.value, svc, |m|, k) && m[k] == "";
      var r := ClosestCandidate(m, photo.value, svc);
      StableMinUnique(m, photo.value, svc, |m|, k, r.value);
    }
  }

  /** Whenever some entry for the year can be located, proximity decides
      among several entries: the answer is the stable minimum or, when that
      name is empty, the first entry. */
  lemma SomeEntryLocated(year: int, here: Coord, table: seq<LocationRecord>, svc: Services)
    requires year != 0
    requires |YearMatches(table, year)| >= 2
    requires !NoneLocated(YearMatches(table, year), svc, |YearMatches(table, year)|)
    ensures exists k :: && IsStableMin(YearMatches(table, year), here, svc, |YearMatches(table, year)|, k)
                        && FindClosestLocation(Some(year), Some(here), table, svc)
                           == Some(if YearMatches(table, year)[k] != "" then YearMatches(table, year)[k]
                                   else YearMatches(table, year)[0])
  {
    var k := ClosestCandidate(YearMatches(table, year), here, svc).value;
    assert IsStableMin(YearMatches(table, year), here, svc, |YearMatches(table, year)|, k);
  }

  /** Table entries for year 0 are loaded but never matched. */
  lemma YearZeroNeverMatches(photo: Option<Coord>, table: seq<LocationRecord>, svc: Services)
    ensures FindClosestLocation(Some(0), photo, table, svc) == None
    ensures FindClosestLocation(None, photo, table, svc) == None
  {
  }

  /** Two entries for one year: the strictly nearer one wins whatever its
      place in the table, and on equal distances the first one does. */
  lemma NearerOfTwoWins(year: int, a: string, b: string, here: Coord, svc: Services)
    requires year != 0 && a != "" && b != ""
    requires svc.geocode(a).Some? && svc.geocode(b).Some?
    ensures var da, db := svc.distance(here, svc.geocode(a).value), svc.distance(here, svc.geocode(b).value);
            FindClosestLocation(Some(year), Some(here), [LocationRecord(year, a), LocationRecord(year, b)], svc)
            == Some(if db < da then b else a)
  {
    var table := [LocationRecord(year, a), LocationRecord(year, b)];
    assert table[1..][1..] == [];
    var m := [a, b];
    assert YearMatches(table, year) == m;
    if svc.distance(here, svc.geocode(b).value) < svc.distance(here, svc.geocode(a).value) {
      assert IsStableMin(m, here, svc, 2, 1);
      NearestEntryWins(year, here, table, svc, 1);
    } else {
      assert IsStableMin(m, here, svc, 2, 0);
      NearestEntryWins(year, here, table, svc, 0);
    }
  }
}
